=== FILE: README.md ===
# Golomb-Rice coded set, modelled in Dafny

This project models `filter.go` of the Go package `golombfilter`, a Golomb-Rice
coded set. The package has four parts:

- **Construction.** `New` takes a list of 32-bit hashes and a tuning parameter
  `power`. It reduces each hash modulo `m = uint32(len(hashes) * 2^power)` and
  keeps the distinct residues.
- **Query.** `ContainsHash` and `Contains` look a hash, or a hashed byte
  string, up in that set. They reduce by a modulus recomputed from the current
  number of distinct members.
- **Builder.** `BuilderHash`, `builder.AddValue` and `builder.Filter`
  accumulate hashes of raw values and then call `New`.
- **Wire form.** `Encode` sorts the members, takes the gaps between them and
  writes each gap with `appendCoding`: `gap >> power` ones, a zero, then the
  low `power` bits most significant first. `Decode` and `extractValue` read
  the codes back, adding each gap to a running sum that wraps at 2^32.

The project has four modules, one file each:

- `words.dfy` (`Words`): `uint32`, bits, `Option`, powers of two, shifts, and
  the division facts the other modules use.
- `rice.dfy` (`Rice`): one Golomb-Rice code, that is `appendCoding` and
  `extractValue`, and the proof that one inverts the other.
- `filter.dfy` (`GolombFilter`): the `Filter` and `builder` types, `New`,
  the queries and the builder.
- `codec.dfy` (`Codec`): `Encode` and `Decode`, the round trip and
  truncation detection.

Go panics are modelled in two ways:
- Two are preconditions: encoding an empty filter, and querying a filter whose
  query modulus is zero. That modulus is zero for every empty filter, and also
  for some filters `New` builds successfully (see below). It is also zero for
  every filter `Decode` builds with a power of 32 or more. So a caller has to
  check it before querying.
- The others give a `None` result: a bad `power`, a zero modulus during
  construction, and a read past the end of the bits while decoding.

The hasher's reset/write/sum protocol becomes a function from
byte strings to `uint32`, stored in the filter as the Go code stores its
hasher.

Behaviour at the edges, as the code has it:
- Encoding an empty filter panics on `values[0]`. It does not yield an empty
  bit sequence.
- `New` with no hashes, which includes a builder with no values, returns an
  empty filter. It does not report an error.
- The product `len(hashes) * 2^power` is truncated to 32 bits without any
  overflow check. Construction fails only when the truncated modulus is zero
  and there is a hash to reduce.
- With a power of 1 or more, an input cut inside a code makes `extractValue`
  read out of range (filter.go:114), which is a panic. The model returns
  `None`. With power 0 no remainder field is read, so a cut goes undetected:
  the filter {3} encodes to 1, 1, 1, 0, and 1, 1, 1 decodes to the same
  filter (`PowerZeroCutUndetected`).
- A member need not be found by querying it. Queries reduce by a modulus
  computed from the deduplicated member count, which can differ from the
  construction modulus. With power 1, the hashes 5, 11, 0 give the members
  {0, 5} and the query modulus 4, so a query for 5 misses
  (`MemberNotFound`).
- `New` can succeed with a query modulus of zero. With power 31, the hashes
  0, 2^31, 1 reduce modulo 2^31 to two members. Two members give the query
  modulus `2 * 2^31 mod 2^32 == 0`, so every `ContainsHash` or `Contains` on
  that filter panics at filter.go:38 (`QueryModulusCanVanish`).
- Colliding hashes do not by themselves make a query miss. What matters is whether
  the query modulus equals the construction modulus. With power 31, the
  hashes 0, 0, 0 collide, yet both moduli are 2^31 and 0 is found
  (`CollisionKeepsModulus`).

There are no named error kinds in the code, and none in the model.

## Model

| member | source | states |
|---|---|---|
| GolombFilter.New | filter.go:16-34 | Succeeds only for 1 <= power <= 31. It keeps power and hasher. Its members are exactly the residues `h % m` of the given hashes, where `m` is `len(hashes) * 2^power` truncated to 32 bits. So every member is below `m` and there are at most `len(hashes)` of them. |
| GolombFilter.ReduceMembers | filter.go:23-27 | The insertion loop, `Reduce`, leaves exactly the residues of the hashes. Each is below the modulus, and there are at most as many as there are hashes. |
| GolombFilter.NewFailsExactly | filter.go:17-26 | `New` panics if and only if power is outside [1, 31], or there is at least one hash and the hash count is a multiple of 2^(32 - power). In that case the truncated modulus is zero and `h % m` divides by zero. |
| GolombFilter.ModulusVanishes | filter.go:24 | For 1 <= power <= 31, `uint32(n * 2^power)` is zero exactly when n is a multiple of 2^(32 - power). |
| GolombFilter.WideModulusVanishes | filter.go:37 | For a power of 32 or more, `uint32(n * 2^power)` is zero for every count n. |
| GolombFilter.ReduceSize | filter.go:23-27 | The set `Reduce` builds has one member per hash exactly when no two hashes share a residue. Otherwise it has fewer members than there are hashes. |
| GolombFilter.ModulusKeptNoFalseNegatives | filter.go:16-40 | Take a valid power and at least one hash, with a non-vanishing construction modulus. Suppose the deduplicated member count gives the same truncated modulus as the hash count. Then `New` succeeds, its query modulus equals the construction modulus, and `ContainsHash` holds for every hash the filter was built from, collisions or not. |
| GolombFilter.NoFalseNegatives | filter.go:16-40 | Take a valid power, a non-vanishing modulus, and hashes that are pairwise distinct after reduction. Then `New` succeeds, the filter keeps one member per hash, and the query modulus equals the construction modulus. `ContainsHash` holds for every hash the filter was built from. |
| GolombFilter.QueryFindsSmallMembers | filter.go:36-40 | `ContainsHash` finds every member that lies below the query modulus. Its answer depends only on the hash's residue modulo the query modulus. |
| GolombFilter.CollisionKeepsModulus | filter.go:16-40 | With power 31, the hashes 0, 0, 0 collide into {0}. The query modulus is still `Modulus(3, 31)`, and 0 is found. |
| GolombFilter.CollisionCausesFalseNegative | filter.go:36-40 | `ContainsHash` uses the deduplicated member count. With power 1, the hashes 1, 7, 2 reduce modulo 6 to {1, 2}. Queries then reduce modulo 4, and 7 is not found. |
| GolombFilter.MemberNotFound | filter.go:36-40 | With power 1, the hashes 5, 11, 0 give the members {0, 5}. The query modulus is 4, and the member 5 is not found by `ContainsHash`. |
| GolombFilter.QueryModulusCanVanish | filter.go:16-40 | With power 31, `New` on the hashes 0, 2^31, 1 succeeds with members {0, 1}, and the query modulus is 0. Every query on that filter would divide by zero at filter.go:38. |
| GolombFilter.BuilderHash | filter.go:123-129 | A new builder holds no hashes and keeps the given power, unchecked, and the given hasher. |
| GolombFilter.AddValue | filter.go:137-141 | Appends exactly one entry, the hash of the value. Earlier entries, power and hasher are unchanged, and nothing is deduplicated. |
| GolombFilter.AddValuesAccumulates | filter.go:137-141 | After adding a sequence of values, the builder holds its earlier hashes in order, followed by the hash of each value in order. |
| GolombFilter.BuildFilter | filter.go:144-146 | Building fails for a power outside [1, 31]. This is the first time power is checked. A built filter carries the builder's power and hasher. |
| GolombFilter.BuilderNoFalseNegatives | filter.go:42-46 | Suppose building from the added values succeeds, and the query modulus equals the construction modulus. Then the query modulus is non-zero, and `Contains`, which hashes the value and queries, finds every value added to the builder. |
| GolombFilter.BuilderCollisionFreeNoFalseNegatives | filter.go:137-146 | Take a valid power, a non-vanishing modulus, and added values whose hashes are pairwise distinct after reduction. Then building succeeds, the moduli agree, and `Contains` finds every value added to the builder. |
| Rice.RiceCodeBits | filter.go:68-83 | The code of a value is `value >> power` ones, then a zero, then bit `power - 1 - j` of `value % 2^power` at remainder position j. |
| Rice.AppendCoding | filter.go:68-83 | Appends exactly `(value >> power) + 1 + power` bits. |
| Rice.AppendCodingShape | filter.go:68-77 | The given bits stay unchanged as a prefix, followed by `value >> power` ones and a zero. |
| Rice.AppendCodingRemainder | filter.go:79-81 | The last `power` bits are the value's low bits, most significant first: counted from the end, bit j of the value. Read back as a binary number, they give `value % 2^power`. |
| Rice.ReadBits | filter.go:112-115 | The remainder accumulated from `n` bits is below 2^n. |
| Rice.ReadBitsOfMsb | filter.go:112-115 | Reading back the top `n` of the `w` bits written most significant first from x gives the low `n` bits of `x >> (w - n)`. |
| Rice.ReadRemainderField | filter.go:112-115 | A remainder field holding a value's low bits, most significant first, reads back as `value % 2^power`. |
| Rice.LowBitsKeepBit | filter.go:71-80 | Masking with `2^power - 1` keeps every bit below `power`. So the bits written from the masked remainder are the value's own bits. |
| Rice.UnaryRunStops | filter.go:104-110 | The unary run `UnaryRun` counts stays inside the bits and consists of ones. It ends at a zero or at the end of the bits. |
| Rice.UnaryRunOfOnes | filter.go:104-110 | When q ones are followed by a zero, the counting loop `UnaryRun` counts exactly q. |
| Rice.ExtractValue | filter.go:103-117 | Extraction fails exactly when the power is positive and the remainder field, which starts after the unary run and its zero, runs past the end of the bits. That is the out-of-range read at line 114. On success, the next index is `index + unary run + 1 + power`. That is past the start index, which makes the decoding loop terminate, and for a positive power it stays within the bits. |
| Rice.ExtractInvertsAppend | filter.go:103-117 | Wherever the code of a value sits in a bitstream, extraction from its first bit returns that value and the index just past the code. |
| Rice.Reassemble | filter.go:116 | Recombining the quotient shifted up by `power` with the remainder, truncated to 32 bits, gives the original value. |
| Codec.SortedMembers | filter.go:49-57 | The sorted sequence has one entry per member. |
| Codec.SortedMembersOrder | filter.go:49-57 | The sorted sequence holds exactly the members, strictly increasing. It starts with the least member and ends with the largest. |
| Codec.IncreasingPairs | filter.go:55-57 | In the sorted sequence every earlier value is below every later one, so no gap underflows. |
| Codec.DeltasFromGaps | filter.go:61-64 | Adding each gap to the value before it gives the next value back. The first gap is measured from 0. |
| Codec.EncodeDeltasShape | filter.go:59-65 | The encoding loop, `EncodeDeltas`, only appends. It appends at least one bit per value, and at least `1 + power` bits when there is a value. |
| Codec.Encode | filter.go:48-65 | The encoding of a non-empty filter has at least `1 + power` bits and at least one bit per member. |
| Codec.EncodeStructure | filter.go:48-65 | The encoding is the concatenation of the codes of the smallest member and of each gap between consecutive sorted members. Its length is the sum of their code lengths. |
| Codec.CodeLengthSumBounds | filter.go:68-83 | Concatenated codes take at least `1 + power` bits each. In total they take at most that plus `(sum of the gaps) >> power` bits. |
| Codec.EncodeLengthBounds | filter.go:48-83 | The encoded length lies between `members * (1 + power)` and that plus `largest member >> power`. |
| Codec.Decode | filter.go:85-100 | Decoding an empty bit sequence gives the empty filter. A decoded filter carries the given power and hasher. |
| Codec.WideDecodedFilterUnqueryable | filter.go:85-100 | `Decode` accepts any power. Every filter it builds with a power of 32 or more has query modulus 0, so any query on it divides by zero at filter.go:38. |
| Codec.DecodedSizeBound | filter.go:85-100 | A decoded filter has no more members than there are bits. |
| Codec.ElementsContent | filter.go:87-94 | Inserting the decoded values into the map leaves exactly those values as keys, at most one per value. |
| Codec.DecodeFrom | filter.go:90-94 | Every value the decoding loop yields uses at least one bit. So a successful run from an index yields no more values than there are bits from that index on. |
| Codec.DecodeEncodeDeltas | filter.go:59-94 | Running `DecodeFrom` over the bits that `EncodeDeltas` appended, from where they begin and with the same predecessor, recovers exactly the encoded values. |
| Codec.DecodeEncode | filter.go:48-100 | `Decode(Encode(f), f.power, f.hasher)` is `f` for every non-empty filter. |
| Codec.RoundTrip | filter.go:48-100 | The decoded filter equals the original. It re-encodes to the same bits and gives the same `ContainsHash` answer on every hash. |
| Codec.TruncatedCodesFail | filter.go:90-115 | When 1 to `power` bits are cut off the end of a run of codes, every code but the last reads back intact. The last code's remainder field runs past the end, so decoding fails whatever the running sum. |
| Codec.PowerZeroCutUndetected | filter.go:103-117 | With power 0 the filter {3} encodes to 1, 1, 1, 0. Cutting the last bit leaves 1, 1, 1, which still decodes to {3}, because no remainder bit is read and the unary run simply stops at the end of the bits. |
| Codec.TruncatedEncodingFails | filter.go:85-117 | Cutting 1 to `power` trailing bits off an encoding makes `Decode` fail. It does not return a partial filter. |

## Left out

- murmur3 and `Builder(power)`: the default hasher is a foreign library, so only `BuilderHash` with a hasher passed in is modelled.
- The `hash.Hash32` reset/write/sum protocol: it mutates the hasher's scratch state. It is modelled as the pure function the three calls compute together.
- The iteration order of Go maps in `Encode`: the values are sorted immediately afterwards, so the model sorts a set directly.
- The false-positive rate: it is a probabilistic property of the hashes, not a property of this code.
- Concurrency: sharing one hasher between goroutines races on its state. The package has no concurrency of its own.
- Encode: an empty filter is excluded by a precondition, because the code panics on `values[0]`.
- ContainsHash, Contains: a zero query modulus is excluded by a precondition, because the code panics on `hash % 0`. It occurs for every empty filter and for some filters `New` builds (QueryModulusCanVanish). Neither function has an `ensures` of its own. Their meaning is stated by ModulusKeptNoFalseNegatives, QueryFindsSmallMembers, MemberNotFound, CollisionCausesFalseNegative, BuilderNoFalseNegatives and RoundTrip.
- Decode: `power` is a natural number, and negative powers are not modelled. With a negative power the remainder loop at filter.go:113 runs zero times, but `uniaryCount<<power` at filter.go:116 shifts by a negative count, which panics on any non-empty input.
- Decode: bitstreams hold only 0 and 1. The Go `[]int` could hold other integers, which `extractValue` would count or add in arithmetically. Only the values `Encode` produces are modelled.
- Decode with a power different from the one used to encode: the code does not detect this, and no property is stated about it.
- TruncatedEncodingFails: only states failure when 1 to `power` bits are cut, so it says nothing at power 0, where a cut is not detected (PowerZeroCutUndetected). Cutting more may end exactly at a code boundary, and then `Decode` returns a smaller filter without failing.
- Integer width: Go's 64-bit `int` is unbounded here. Every 64-bit product or shift the code casts to `uint32` (filter.go:24, 37, 116) is modelled modulo 2^32. The 64-bit wrap cannot change the low 32 bits.

=== FILE: codec.dfy ===
/** The wire form of a filter (filter.go: `Encode` and `Decode`): the
    members in ascending order, delta-encoded, each delta written as a
    Golomb-Rice code with the filter's power, with no header, count or
    terminator. */
module Codec {
  import opened Words
  import opened Rice
  import opened GolombFilter

  /** Each value is strictly greater than the one before it. */
  predicate StrictlyIncreasing(vs: seq<uint32>)
  {
    |vs| <= 1 || (vs[0] < vs[1] && StrictlyIncreasing(vs[1..]))
  }

  /** In a strictly increasing sequence every earlier value is smaller than
      every later one. */
  lemma {:induction false} IncreasingPairs(vs: seq<uint32>)
    requires StrictlyIncreasing(vs)
    ensures forall i, j | 0 <= i < j < |vs| :: vs[i] < vs[j]
  {
    if |vs| > 1 {
      IncreasingPairs(vs[1..]);
      forall i, j | 0 <= i < j < |vs|
        ensures vs[i] < vs[j]
      {
        if i > 0 {
          assert vs[i] == vs[1..][i - 1] && vs[j] == vs[1..][j - 1];
        } else if j > 1 {
          assert vs[1] == vs[1..][0] && vs[j] == vs[1..][j - 1];
        }
      }
    }
  }

  predicate IsLeast(m: uint32, s: set<uint32>)
  {
    m in s && forall y | y in s :: m <= y
  }

  /** Every non-empty finite set of 32-bit values has a least element. */
  lemma {:induction false} HasMinimum(s: set<uint32>)
    requires s != {}
    ensures exists m :: IsLeast(m, s)
    decreases |s|
  {
    var x :| x in s;
    if s == {x} {
      assert IsLeast(x, s);
    } else {
      HasMinimum(s - {x});
      var m :| IsLeast(m, s - {x});
      var least := if x < m then x else m;
      forall y | y in s
        ensures least <= y
      {
        if y != x {
          assert y in s - {x};
        }
      }
      assert IsLeast(least, s);
    }
  }

  /** The members in ascending order: the result of sorting the values the
      Go code collects from its map. */
  function SortedMembers(s: set<uint32>): (r: seq<uint32>)
    ensures |r| == |s|
    decreases |s|
  {
    if s == {} then []
    else
      HasMinimum(s);
      var m :| IsLeast(m, s);
      [m] + SortedMembers(s - {m})
  }

  /** Sorting keeps exactly the members, strictly increasing, from the
      least member to the largest. */
  lemma {:induction false} SortedMembersOrder(s: set<uint32>)
    ensures StrictlyIncreasing(SortedMembers(s))
    ensures forall x :: x in SortedMembers(s) <==> x in s
    ensures s != {} ==> IsLeast(SortedMembers(s)[0], s)
    ensures s != {} ==> forall x | x in s :: x <= SortedMembers(s)[|s| - 1]
    decreases |s|
  {
    if s != {} {
      var r := SortedMembers(s);
      var m := r[0];
      var rest := r[1..];
      assert IsLeast(m, s) && rest == SortedMembers(s - {m});
      SortedMembersOrder(s - {m});
      PrependLeast(m, s, rest);
      assert r == [m] + rest;
    }
  }

  /** Putting the least element in front of the sorted remaining elements
      gives the sorted elements. */
  lemma {:induction false} PrependLeast(m: uint32, s: set<uint32>, rest: seq<uint32>)
    requires IsLeast(m, s)
    requires StrictlyIncreasing(rest)
    requires forall x :: x in rest <==> x in s - {m}
    requires |rest| == |s - {m}|
    requires |rest| > 0 ==> forall x | x in s - {m} :: x <= rest[|rest| - 1]
    ensures StrictlyIncreasing([m] + rest)
    ensures forall x :: x in [m] + rest <==> x in s
    ensures |[m] + rest| == |s|
    ensures forall x | x in s :: x <= ([m] + rest)[|rest|]
  {
    var r := [m] + rest;
    if |rest| > 0 {
      assert r[1..] == rest && r[1] == rest[0];
      assert rest[0] in s - {m};
    } else {
      assert s - {m} == {};
    }
  }

  /** The gaps the encoder codes: the first value measured from `prev`, then
      each value measured from its predecessor. */
  function DeltasFrom(prev: uint32, vs: seq<uint32>): (r: seq<uint32>)
    requires StrictlyIncreasing(vs) && (|vs| > 0 ==> prev <= vs[0])
    ensures |r| == |vs|
    ensures |vs| > 0 ==> r[0] == vs[0] - prev
    decreases |vs|
  {
    if |vs| == 0 then []
    else
      IncreasingTail(vs);
      [vs[0] - prev] + DeltasFrom(vs[0], vs[1..])
  }

  /** Adding each gap to the value before it gives back the next value. */
  lemma {:induction false} DeltasFromGaps(prev: uint32, vs: seq<uint32>)
    requires StrictlyIncreasing(vs) && (|vs| > 0 ==> prev <= vs[0])
    ensures |vs| > 0 ==> prev + DeltasFrom(prev, vs)[0] == vs[0]
    ensures forall i | 0 < i < |vs| :: vs[i - 1] as int + DeltasFrom(prev, vs)[i] as int == vs[i] as int
    decreases |vs|
  {
    if |vs| > 0 {
      IncreasingTail(vs);
      var ds := DeltasFrom(prev, vs);
      DeltasFromGaps(vs[0], vs[1..]);
      forall i | 0 < i < |vs|
        ensures vs[i - 1] as int + ds[i] as int == vs[i] as int
      {
        assert ds[i] == DeltasFrom(vs[0], vs[1..])[i - 1];
        if i > 1 {
          assert vs[1..][i - 2] as int + DeltasFrom(vs[0], vs[1..])[i - 1] as int == vs[1..][i - 1] as int;
        }
      }
    }
  }

  /** The sum of the code lengths `(d >> power) + 1 + power` of the deltas. */
  function CodeLengthSum(ds: seq<uint32>, power: nat): nat
  {
    if |ds| == 0 then 0 else Shr(ds[0], power) + 1 + power + CodeLengthSum(ds[1..], power)
  }

  /** The codes of the given deltas, one after another. */
  function RiceCodes(ds: seq<uint32>, power: nat): (r: seq<Bit>)
    ensures |r| == CodeLengthSum(ds, power)
  {
    if |ds| == 0 then [] else RiceCode(ds[0], power) + RiceCodes(ds[1..], power)
  }

  /** The loop of `Encode`: append the code of each value's gap to its
      predecessor `prev`. */
  function EncodeDeltas(bits: seq<Bit>, prev: uint32, vs: seq<uint32>, power: nat): seq<Bit>
    requires StrictlyIncreasing(vs) && (|vs| > 0 ==> prev <= vs[0])
    decreases |vs|
  {
    if |vs| == 0 then bits
    else EncodeDeltas(AppendCoding(bits, vs[0] - prev, power), vs[0], vs[1..], power)
  }

  /** The encoder's loop only appends, and appends at least one code of at
      least `1 + power` bits per value. */
  lemma {:induction false} EncodeDeltasShape(bits: seq<Bit>, prev: uint32, vs: seq<uint32>, power: nat)
    requires StrictlyIncreasing(vs) && (|vs| > 0 ==> prev <= vs[0])
    ensures |EncodeDeltas(bits, prev, vs, power)| >= |bits| + |vs|
    ensures |vs| > 0 ==> |EncodeDeltas(bits, prev, vs, power)| >= |bits| + 1 + power
    ensures EncodeDeltas(bits, prev, vs, power)[..|bits|] == bits
    decreases |vs|
  {
    if |vs| > 0 {
      IncreasingTail(vs);
      var bits' := AppendCoding(bits, vs[0] - prev, power);
      EncodeDeltasShape(bits', vs[0], vs[1..], power);
      AppendCodingShape(bits, vs[0] - prev, power);
      var e := EncodeDeltas(bits, prev, vs, power);
      assert e[..|bits|] == e[..|bits'|][..|bits|];
    }
  }

  /** `Encode`: the code of the smallest member, then the codes of the gaps
      between consecutive members. The Go code reads `values[0]`, so an empty
      filter cannot be encoded. */
  function Encode(f: Filter): (r: seq<Bit>)
    requires f.members != {}
    ensures |r| >= 1 + f.power
    ensures |r| >= |f.members|
  {
    var values := SortedMembers(f.members);
    SortedMembersOrder(f.members);
    IncreasingTail(values);
    EncodeDeltasShape(AppendCoding([], values[0], f.power), values[0], values[1..], f.power);
    EncodeDeltas(AppendCoding([], values[0], f.power), values[0], values[1..], f.power)
  }

  /** The loop of `Decode` from bit `index` with running sum `running`: the
      running sums in the order they are inserted into the decoder's map, or
      None once an extraction reads past the end. The running sum is a
      `uint32` and wraps. */
  function DecodeFrom(bits: seq<Bit>, index: nat, power: nat, running: uint32): (r: Option<seq<uint32>>)
    ensures r.Some? ==> index + |r.value| <= |bits| || r.value == []
    decreases |bits| - index
  {
    if index >= |bits| then Some([])
    else
      var step := ExtractValue(bits, index, power);
      if step.None? then None
      else
        var value := (running + step.value.0) % TWO_TO_THE_32;
        var rest := DecodeFrom(bits, step.value.1, power, value);
        if rest.None? then None else Some([value] + rest.value)
  }

  /** The values of a sequence, as a set: what inserting them one by one
      into a map leaves as its keys. */
  function Elements(vs: seq<uint32>): set<uint32>
  {
    if |vs| == 0 then {} else {vs[0]} + Elements(vs[1..])
  }

  /** Inserting n values leaves exactly those values as keys, and at most n
      distinct ones. */
  lemma {:induction false} ElementsContent(vs: seq<uint32>)
    ensures forall x :: x in Elements(vs) <==> x in vs
    ensures |Elements(vs)| <= |vs|
  {
    if |vs| > 0 {
      ElementsContent(vs[1..]);
      assert vs == [vs[0]] + vs[1..];
    }
  }

  /** `Decode`: rebuild a filter from its bits, the power and a hasher; None
      where the Go code would read past the end of the bits. */
  function Decode(bits: seq<Bit>, power: nat, hasher: Hasher): (r: Option<Filter>)
    ensures bits == [] ==> r == Some(Filter({}, power, hasher))
    ensures r.Some? ==> r.value.power == power && r.value.hasher == hasher
  {
    var decoded := DecodeFrom(bits, 0, power, 0);
    if decoded.None? then None
    else Some(Filter(Elements(decoded.value), power, hasher))
  }

  /** `Decode` accepts any power, but a filter it builds with a power of 32
      or more can never be queried: its query modulus is zero. */
  lemma {:induction false} WideDecodedFilterUnqueryable(bits: seq<Bit>, power: nat, hasher: Hasher)
    requires power >= 32
    ensures Decode(bits, power, hasher).Some? ==> QueryModulus(Decode(bits, power, hasher).value) == 0
  {
    if Decode(bits, power, hasher).Some? {
      WideModulusVanishes(|Decode(bits, power, hasher).value.members|, power);
    }
  }

  /** A decoded filter has at most as many members as there are bits. */
  lemma {:induction false} DecodedSizeBound(bits: seq<Bit>, power: nat, hasher: Hasher)
    ensures Decode(bits, power, hasher).Some? ==> |Decode(bits, power, hasher).value.members| <= |bits|
  {
    var decoded := DecodeFrom(bits, 0, power, 0);
    if decoded.Some? {
      ElementsContent(decoded.value);
    }
  }

  /** `Encode` is the encoder's loop started from an imaginary predecessor 0. */
  lemma {:induction false} EncodeFromZero(f: Filter)
    requires f.members != {}
    ensures StrictlyIncreasing(SortedMembers(f.members))
    ensures Encode(f) == EncodeDeltas([], 0, SortedMembers(f.members), f.power)
  {
    var values := SortedMembers(f.members);
    SortedMembersOrder(f.members);
    assert values[0] - 0 == values[0];
  }

  /** The encoder's loop emits exactly the concatenated codes of the gaps. */
  lemma {:induction false} EncodeDeltasIsConcatenation(bits: seq<Bit>, prev: uint32, vs: seq<uint32>, power: nat)
    requires StrictlyIncreasing(vs) && (|vs| > 0 ==> prev <= vs[0])
    ensures EncodeDeltas(bits, prev, vs, power) == bits + RiceCodes(DeltasFrom(prev, vs), power)
    decreases |vs|
  {
    if |vs| > 0 {
      IncreasingTail(vs);
      var d := vs[0] - prev;
      var ds := DeltasFrom(prev, vs);
      var tail := RiceCodes(DeltasFrom(vs[0], vs[1..]), power);
      assert ds[0] == d && ds[1..] == DeltasFrom(vs[0], vs[1..]);
      assert RiceCodes(ds, power) == RiceCode(d, power) + tail;
      assert EncodeDeltas(bits, prev, vs, power) == bits + RiceCode(d, power) + tail by {
        EncodeDeltasIsConcatenation(AppendCoding(bits, d, power), vs[0], vs[1..], power);
      }
    }
  }

  /** `Encode` is the concatenation of the codes of `sorted[0]` and of every
      gap `sorted[i + 1] - sorted[i]`, and its length is the sum of their
      code lengths. */
  lemma {:induction false} EncodeStructure(f: Filter)
    requires f.members != {}
    ensures StrictlyIncreasing(SortedMembers(f.members))
    ensures Encode(f) == RiceCodes(DeltasFrom(0, SortedMembers(f.members)), f.power)
    ensures |Encode(f)| == CodeLengthSum(DeltasFrom(0, SortedMembers(f.members)), f.power)
  {
    var values := SortedMembers(f.members);
    EncodeFromZero(f);
    EncodeDeltasIsConcatenation([], 0, values, f.power);
  }

  /** The sum of the gaps. */
  function Sum(ds: seq<uint32>): nat
  {
    if |ds| == 0 then 0 else ds[0] + Sum(ds[1..])
  }

  /** The gaps telescope: they add up to the span from `prev` to the last value. */
  lemma {:induction false} DeltasTelescope(prev: uint32, vs: seq<uint32>)
    requires StrictlyIncreasing(vs) && |vs| > 0 && prev <= vs[0]
    ensures prev + Sum(DeltasFrom(prev, vs)) == vs[|vs| - 1]
    decreases |vs|
  {
    var ds := DeltasFrom(prev, vs);
    IncreasingTail(vs);
    var tail := DeltasFrom(vs[0], vs[1..]);
    assert Sum(ds) == vs[0] - prev + Sum(tail) by {
      assert ds[1..] == tail;
    }
    if |vs| > 1 {
      DeltasTelescope(vs[0], vs[1..]);
      assert vs[1..][|vs| - 2] == vs[|vs| - 1];
    } else {
      assert tail == [];
    }
  }

  /** The rest of a strictly increasing sequence is strictly increasing and
      starts above its first value. */
  lemma {:induction false} IncreasingTail(vs: seq<uint32>)
    requires StrictlyIncreasing(vs) && |vs| > 0
    ensures StrictlyIncreasing(vs[1..])
    ensures |vs| > 1 ==> vs[0] <= vs[1..][0]
  {
    if |vs| > 1 {
      assert vs[1..][0] == vs[1];
    }
  }

  /** Each code takes at least `1 + power` bits, and all the unary parts
      together take at most `(sum of the gaps) >> power` bits. */
  lemma {:induction false} CodeLengthSumBounds(ds: seq<uint32>, power: nat)
    ensures |ds| * (1 + power) <= CodeLengthSum(ds, power)
    ensures CodeLengthSum(ds, power) <= |ds| * (1 + power) + Shr(Sum(ds), power)
    decreases |ds|
  {
    if |ds| > 0 {
      CodeLengthSumBounds(ds[1..], power);
      MulSucc(|ds|, 1 + power);
      FloorDivSuperadditive(ds[0], Sum(ds[1..]), Pow2(power));
    }
  }

  /** The encoded length lies between `|members| * (1 + power)` and that
      plus `max >> power`, where max is the largest member. */
  lemma {:induction false} EncodeLengthBounds(f: Filter, top: uint32)
    requires top in f.members && forall x | x in f.members :: x <= top
    ensures |f.members| * (1 + f.power) <= |Encode(f)|
    ensures |Encode(f)| <= |f.members| * (1 + f.power) + Shr(top, f.power)
  {
    var ds := EncodeGaps(f, top);
    CodeLengthSumBounds(ds, f.power);
  }

  /** The gaps a filter is encoded from: one per member, adding up to the
      largest member. */
  lemma {:induction false} EncodeGaps(f: Filter, top: uint32) returns (ds: seq<uint32>)
    requires top in f.members && forall x | x in f.members :: x <= top
    ensures |Encode(f)| == CodeLengthSum(ds, f.power)
    ensures |ds| == |f.members| && Sum(ds) == top
  {
    var values := SortedMembers(f.members);
    EncodeStructure(f);
    ds := DeltasFrom(0, values);
    DeltasTelescope(0, values);
    SortedLastIsLargest(f.members, top);
  }

  lemma {:induction false} SortedLastIsLargest(s: set<uint32>, top: uint32)
    requires top in s && forall x | x in s :: x <= top
    ensures |SortedMembers(s)| > 0 && SortedMembers(s)[|SortedMembers(s)| - 1] == top
  {
    var values := SortedMembers(s);
    SortedMembersOrder(s);
    var last := values[|values| - 1];
    assert last in values;
    assert top <= last;
    assert last <= top;
  }

  /** One iteration of the decoding loop: a successful extraction adds the
      new running sum to what the rest of the bits decode to. */
  lemma {:induction false} DecodeFromStep(bits: seq<Bit>, index: nat, power: nat, running: uint32, diff: uint32, next: nat, vs: seq<uint32>)
    requires index < |bits|
    requires ExtractValue(bits, index, power) == Some((diff, next))
    requires |vs| > 0 && vs[0] == (running + diff) % TWO_TO_THE_32
    requires DecodeFrom(bits, next, power, vs[0]) == Some(vs[1..])
    ensures DecodeFrom(bits, index, power, running) == Some(vs)
  {
    assert [vs[0]] + vs[1..] == vs;
  }

  /** One iteration of the decoding loop, when the rest of the bits fail. */
  lemma {:induction false} DecodeFromStepFails(bits: seq<Bit>, index: nat, power: nat, running: uint32, diff: uint32, next: nat, value: uint32)
    requires index < |bits|
    requires ExtractValue(bits, index, power) == Some((diff, next))
    requires value == (running + diff) % TWO_TO_THE_32
    requires DecodeFrom(bits, next, power, value) == None
    ensures DecodeFrom(bits, index, power, running) == None
  {
    var step := ExtractValue(bits, index, power);
    assert step.value.0 == diff && step.value.1 == next;
  }

  /** The code of `value` sits in `e` right after `bits` when `e` extends
      the result of appending it, so extraction there finds it. */
  lemma {:induction false} ExtractAfterAppend(e: seq<Bit>, bits: seq<Bit>, value: uint32, power: nat)
    requires |AppendCoding(bits, value, power)| <= |e|
    requires e[..|AppendCoding(bits, value, power)|] == AppendCoding(bits, value, power)
    ensures |bits| < |e|
    ensures ExtractValue(e, |bits|, power) == Some((value, |AppendCoding(bits, value, power)|))
  {
    var appended := AppendCoding(bits, value, power);
    var code := RiceCode(value, power);
    forall j | 0 <= j < |code|
      ensures e[|bits| + j] == code[j]
    {
      assert e[..|appended|][|bits| + j] == appended[|bits| + j];
    }
    ExtractInvertsAppend(e, |bits|, value, power);
  }

  /** Decoding the bits the encoder's loop appended after `bits`, starting
      where they begin, recovers exactly the encoded values. */
  lemma {:induction false} DecodeEncodeDeltas(bits: seq<Bit>, prev: uint32, vs: seq<uint32>, power: nat)
    requires StrictlyIncreasing(vs) && (|vs| > 0 ==> prev <= vs[0])
    ensures DecodeFrom(EncodeDeltas(bits, prev, vs, power), |bits|, power, prev) == Some(vs)
    decreases |vs|
  {
    if |vs| > 0 {
      IncreasingTail(vs);
      var d := vs[0] - prev;
      var bits' := AppendCoding(bits, d, power);
      var e := EncodeDeltas(bits, prev, vs, power);
      EncodeDeltasFirstCode(bits, prev, vs, power);
      DecodeEncodeDeltas(bits', vs[0], vs[1..], power);
      DecodeFromStep(e, |bits|, power, prev, d, |bits'|, vs);
    }
  }

  /** The encoder's loop starts with the code of the first gap, and the
      decoder's extraction there finds that gap and the start of the rest. */
  lemma {:induction false} EncodeDeltasFirstCode(bits: seq<Bit>, prev: uint32, vs: seq<uint32>, power: nat)
    requires StrictlyIncreasing(vs) && |vs| > 0 && prev <= vs[0]
    requires StrictlyIncreasing(vs[1..]) && (|vs| > 1 ==> vs[0] <= vs[1..][0])
    ensures EncodeDeltas(bits, prev, vs, power) == EncodeDeltas(AppendCoding(bits, vs[0] - prev, power), vs[0], vs[1..], power)
    ensures |bits| < |EncodeDeltas(bits, prev, vs, power)|
    ensures ExtractValue(EncodeDeltas(bits, prev, vs, power), |bits|, power)
              == Some((vs[0] - prev, |AppendCoding(bits, vs[0] - prev, power)|))
    ensures (prev + (vs[0] - prev)) % TWO_TO_THE_32 == vs[0]
  {
    var gap: uint32 := vs[0] - prev;
    var a := AppendCoding(bits, gap, power);
    var e := EncodeDeltas(bits, prev, vs, power);
    assert e == EncodeDeltas(a, vs[0], vs[1..], power);
    EncodeDeltasShape(a, vs[0], vs[1..], power);
    assert |a| <= |e| && e[..|a|] == a;
    ExtractAfterAppend(e, bits, gap, power);
    DivModUnique(prev + gap, TWO_TO_THE_32, 0, vs[0]);
  }

  /** Round trip: decoding the encoding of a non-empty filter with its power
      and hasher rebuilds the same filter, so it answers every query the
      same way and re-encodes to the same bits. */
  lemma {:induction false} RoundTrip(f: Filter)
    requires f.members != {}
    ensures Decode(Encode(f), f.power, f.hasher) == Some(f)
    ensures Encode(Decode(Encode(f), f.power, f.hasher).value) == Encode(f)
    ensures QueryModulus(f) != 0 ==>
              forall h: uint32 :: ContainsHash(Decode(Encode(f), f.power, f.hasher).value, h) == ContainsHash(f, h)
  {
    DecodeEncode(f);
  }

  /** Decoding the encoding of a non-empty filter rebuilds it. */
  lemma {:induction false} DecodeEncode(f: Filter)
    requires f.members != {}
    ensures Decode(Encode(f), f.power, f.hasher) == Some(f)
  {
    var values := SortedMembers(f.members);
    SortedMembersOrder(f.members);
    DecodeFromEncode(f);
    ElementsContent(values);
    assert Elements(values) == f.members;
  }

  /** The decoding loop run over an encoding yields the sorted members. */
  lemma {:induction false} DecodeFromEncode(f: Filter)
    requires f.members != {}
    ensures DecodeFrom(Encode(f), 0, f.power, 0) == Some(SortedMembers(f.members))
  {
    EncodeFromZero(f);
    DecodeEncodeDeltas([], 0, SortedMembers(f.members), f.power);
  }

  /** Truncation is detected: when the bits from `i` on are the codes of
      the gaps `ds` with 1 to `power` bits cut off the end, every code but
      the last is read back intact, the last one's remainder field runs past
      the end, and decoding fails whatever the running sum. */
  lemma {:induction false} TruncatedCodesFail(t: seq<Bit>, i: nat, ds: seq<uint32>, power: nat, k: nat, running: uint32)
    requires |ds| > 0 && 1 <= k <= power
    requires i + CodeLengthSum(ds, power) == |t| + k
    requires forall j | 0 <= j < |t| - i :: t[i + j] == RiceCodes(ds, power)[j]
    ensures DecodeFrom(t, i, power, running) == None
    decreases |ds|
  {
    var c := RiceCode(ds[0], power);
    var codes := RiceCodes(ds, power);
    assert codes == c + RiceCodes(ds[1..], power);
    if |ds| == 1 {
      forall j | 0 <= j < |t| - i
        ensures t[i + j] == c[j]
      {
        assert codes[j] == c[j];
      }
      TruncatedCodeFails(t, i, ds[0], power, k);
    } else {
      var next := i + |c|;
      var value := (running + ds[0]) % TWO_TO_THE_32;
      assert CodeLengthSum(ds[1..], power) >= 1 + power;
      forall j | 0 <= j < |c|
        ensures t[i + j] == c[j]
      {
        assert t[i + j] == codes[j];
      }
      ExtractInvertsAppend(t, i, ds[0], power);
      forall j | 0 <= j < |t| - next
        ensures t[next + j] == RiceCodes(ds[1..], power)[j]
      {
        assert t[i + (|c| + j)] == codes[|c| + j];
      }
      TruncatedCodesFail(t, next, ds[1..], power, k, value);
      DecodeFromStepFails(t, i, power, running, ds[0], next, value);
    }
  }

  /** A single code with 1 to `power` bits cut off its end: the unary part
      and its terminating zero are intact, but the remainder field runs past
      the end. */
  lemma {:induction false} TruncatedCodeFails(t: seq<Bit>, i: nat, value: uint32, power: nat, k: nat)
    requires 1 <= k <= power
    requires i + |RiceCode(value, power)| == |t| + k
    requires forall j | 0 <= j < |t| - i :: t[i + j] == RiceCode(value, power)[j]
    ensures ExtractValue(t, i, power) == None
  {
    var c := RiceCode(value, power);
    var q := Shr(value, power);
    RiceCodeBits(value, power);
    forall j | i <= j < i + q
      ensures t[j] == 1
    {
      assert t[i + (j - i)] == c[j - i];
    }
    assert t[i + q] == c[q];
    UnaryRunOfOnes(t, i, q);
  }

  /** With power 0 no remainder field is read, so a cut can go unnoticed:
      the filter {3} encodes to 1, 1, 1, 0, and its first three bits decode
      to the same filter. */
  lemma {:induction false} PowerZeroCutUndetected(hasher: Hasher)
    ensures Encode(Filter({3}, 0, hasher)) == [1, 1, 1, 0]
    ensures Decode([1, 1, 1], 0, hasher) == Some(Filter({3}, 0, hasher))
  {
    var f := Filter({3}, 0, hasher);
    var sorted := SortedMembers(f.members);
    SortedMembersOrder(f.members);
    assert |sorted| == 1 && sorted[0] in f.members;
    assert sorted == [3];
    assert Shr(3, 0) == 3;
    assert Ones(3) == [1, 1, 1];
    assert RiceCode(3, 0) == [1, 1, 1, 0];
    assert Encode(f) == EncodeDeltas(AppendCoding([], 3, 0), 3, [], 0);
    var cut: seq<Bit> := [1, 1, 1];
    assert UnaryRun(cut, 3) == 0 && UnaryRun(cut, 2) == 1 && UnaryRun(cut, 1) == 2 && UnaryRun(cut, 0) == 3;
    assert Shl(3, 0) == 3;
    assert ExtractValue(cut, 0, 0) == Some((3, 4));
    assert DecodeFrom(cut, 0, 0, 0) == Some([3]);
    assert Elements([3]) == {3};
  }

  /** Cutting 1 to `power` trailing bits off an encoding makes `Decode` fail
      instead of returning a partial filter. */
  lemma {:induction false} TruncatedEncodingFails(f: Filter, k: nat)
    requires f.members != {} && 1 <= k <= f.power
    ensures Decode(Encode(f)[..|Encode(f)| - k], f.power, f.hasher) == None
  {
    var e := Encode(f);
    var ds := EncodeIsCodes(f);
    TruncatedPrefixFails(e, ds, f.power, k, f.hasher);
    assert Decode(e[..|e| - k], f.power, f.hasher) == None;
  }

  /** A non-empty filter encodes to the concatenated codes of some
      non-empty sequence of gaps. */
  lemma {:induction false} EncodeIsCodes(f: Filter) returns (ds: seq<uint32>)
    requires f.members != {}
    ensures |ds| > 0 && Encode(f) == RiceCodes(ds, f.power)
  {
    EncodeStructure(f);
    ds := DeltasFrom(0, SortedMembers(f.members));
  }

  /** Decoding the concatenated codes of `ds` with 1 to `power` bits cut off
      the end fails. */
  lemma {:induction false} TruncatedPrefixFails(e: seq<Bit>, ds: seq<uint32>, power: nat, k: nat, hasher: Hasher)
    requires |ds| > 0 && 1 <= k <= power && k <= |e|
    requires e == RiceCodes(ds, power)
    ensures Decode(e[..|e| - k], power, hasher) == None
  {
    var t := e[..|e| - k];
    TruncatedCodesFail(t, 0, ds, power, k, 0);
  }
}

=== FILE: filter.dfy ===
/** The Golomb-Rice coded set itself (filter.go): construction by reducing
    32-bit hashes modulo `len(hashes) * 2^power`, membership queries, and the
    builder that accumulates hashes of raw values. The hash function is a
    parameter: any total map from byte strings to 32-bit values. */
module GolombFilter {
  import opened Words

  /** The hasher's reset/write/sum protocol, seen as the function it computes. */
  type Hasher = seq<Byte> -> uint32

  /** `Filter`: the reduced hash set, the tuning parameter and the hasher
      used by `Contains`. */
  datatype Filter = Filter(members: set<uint32>, power: nat, hasher: Hasher)

  /** `uint32(n * (1 << power))`: the product is formed in a 64-bit `int` and
      cast to 32 bits, which keeps it modulo 2^32 (the 64-bit wrap-around
      cannot change the low 32 bits). */
  function Modulus(n: nat, power: nat): uint32
  {
    (n * Pow2(power)) % TWO_TO_THE_32
  }

  /** The modulus a query uses: recomputed from the deduplicated member count. */
  function QueryModulus(f: Filter): uint32
  {
    Modulus(|f.members|, f.power)
  }

  /** The loop of `New` that inserts `h % m` for every hash. */
  function Reduce(hashes: seq<uint32>, m: uint32): set<uint32>
    requires m > 0
  {
    if |hashes| == 0 then {} else {hashes[0] % m} + Reduce(hashes[1..], m)
  }

  /** The reduced set holds exactly the residues of the hashes, each below
      the modulus, and no more of them than there are hashes. */
  lemma {:induction false} ReduceMembers(hashes: seq<uint32>, m: uint32)
    requires m > 0
    ensures forall x :: x in Reduce(hashes, m) <==> exists i :: 0 <= i < |hashes| && hashes[i] % m == x
    ensures forall x | x in Reduce(hashes, m) :: x < m
    ensures |Reduce(hashes, m)| <= |hashes|
  {
    if |hashes| > 0 {
      ReduceMembers(hashes[1..], m);
      assert forall i | 1 <= i < |hashes| :: hashes[i] == hashes[1..][i - 1];
    }
  }

  /** `New`: None where the Go code panics, on a power outside [1, 31] or on
      the division by a zero modulus, which only happens when there is at
      least one hash to reduce. */
  function New(hashes: seq<uint32>, power: int, hasher: Hasher): (r: Option<Filter>)
    ensures r.Some? ==> 1 <= power <= 31 && r.value.power == power && r.value.hasher == hasher
    ensures r.Some? ==> |r.value.members| <= |hashes|
    ensures r.Some? && |hashes| > 0 ==> Modulus(|hashes|, power) != 0
    ensures r.Some? ==> forall x | x in r.value.members :: x < Modulus(|hashes|, power)
    ensures r.Some? ==> forall i | 0 <= i < |hashes| :: hashes[i] % Modulus(|hashes|, power) in r.value.members
    ensures r.Some? ==> forall x | x in r.value.members ::
                          exists i :: 0 <= i < |hashes| && hashes[i] % Modulus(|hashes|, power) == x
  {
    if power < 1 || power > 31 then None
    else if |hashes| == 0 then Some(Filter({}, power, hasher))
    else
      var m := Modulus(|hashes|, power);
      if m == 0 then None
      else
        ReduceMembers(hashes, m);
        Some(Filter(Reduce(hashes, m), power, hasher))
  }

  /** `ContainsHash`: reduce the hash by the modulus recomputed from the
      current member count and look it up. The Go code divides by that
      modulus, so it must not be zero (an empty filter has modulus 0). */
  function ContainsHash(f: Filter, hash: uint32): bool
    requires QueryModulus(f) != 0
  {
    hash % QueryModulus(f) in f.members
  }

  /** `Contains`: hash the value with the filter's hasher and query. */
  function Contains(f: Filter, value: seq<Byte>): bool
    requires QueryModulus(f) != 0
  {
    ContainsHash(f, f.hasher(value))
  }

  /** When New panics: a power outside [1, 31], or a non-empty hash list
      whose length is a multiple of 2^(32 - power), which makes the
      truncated modulus zero. */
  lemma {:induction false} NewFailsExactly(hashes: seq<uint32>, power: int, hasher: Hasher)
    ensures New(hashes, power, hasher).None? <==>
              power < 1 || power > 31 || (|hashes| > 0 && |hashes| % Pow2(32 - power) == 0)
  {
    if 1 <= power <= 31 {
      ModulusVanishes(|hashes|, power);
    }
  }

  /** For 1 <= power <= 31 the truncated modulus `n * 2^power mod 2^32` is
      zero exactly when n is a multiple of 2^(32 - power). */
  lemma {:induction false} ModulusVanishes(n: nat, power: nat)
    requires 1 <= power <= 31
    ensures Modulus(n, power) == 0 <==> n % Pow2(32 - power) == 0
  {
    Pow2Add(power, 32 - power);
    Pow2ThirtyTwo();
    TruncatedProduct(n, Pow2(power), Pow2(32 - power), TWO_TO_THE_32);
    if n % Pow2(32 - power) > 0 {
      MulAtLeast(Pow2(power), n % Pow2(32 - power));
    }
  }

  /** From power 32 on the truncated modulus is zero for every count:
      2^power is then a multiple of 2^32. */
  lemma {:induction false} WideModulusVanishes(n: nat, power: nat)
    requires power >= 32
    ensures Modulus(n, power) == 0
  {
    var k := n * Pow2(power - 32);
    Pow2Add(32, power - 32);
    Pow2ThirtyTwo();
    assert n * Pow2(power) == TWO_TO_THE_32 * k;
    DivModUnique(n * Pow2(power), TWO_TO_THE_32, k, 0);
  }

  /** With t == p * k, the product n * p modulo t is p times (n modulo k). */
  lemma {:induction false} TruncatedProduct(n: nat, p: nat, k: nat, t: nat)
    requires p > 0 && k > 0 && t == p * k
    ensures (n * p) % t == p * (n % k)
  {
    var a, b := n / k, n % k;
    ScaleSplit(n, p, k, a, b);
    ScaleBelow(p, b, k);
    DivModUnique(n * p, t, a, p * b);
  }

  lemma {:induction false} ScaleSplit(n: nat, p: nat, k: nat, a: nat, b: nat)
    requires n == k * a + b
    ensures n * p == (p * k) * a + p * b
  {
  }

  lemma {:induction false} ScaleBelow(p: nat, b: nat, k: nat)
    requires p > 0 && b < k
    ensures p * b < p * k
  {
    MulAtLeast(p, k - b);
    assert p * k == p * b + p * (k - b);
  }

  /** No two hashes share a residue modulo `m`. */
  predicate CollisionFree(hashes: seq<uint32>, m: uint32)
    requires m > 0
  {
    forall i, j | 0 <= i < j < |hashes| :: hashes[i] % m != hashes[j] % m
  }

  /** The reduction keeps one member per hash exactly when no two hashes
      collide; otherwise the set is strictly smaller than the hash list. */
  lemma {:induction false} ReduceSize(hashes: seq<uint32>, m: uint32)
    requires m > 0
    ensures CollisionFree(hashes, m) <==> |Reduce(hashes, m)| == |hashes|
    ensures !CollisionFree(hashes, m) ==> |Reduce(hashes, m)| < |hashes|
  {
    if |hashes| > 0 {
      var head, tail := hashes[0] % m, hashes[1..];
      ReduceSize(tail, m);
      ReduceMembers(tail, m);
      CollisionFreeCons(hashes, m);
      if head in Reduce(tail, m) {
        assert Reduce(hashes, m) == Reduce(tail, m);
        var j :| 0 <= j < |tail| && tail[j] % m == head;
        assert hashes[0] % m == hashes[j + 1] % m;
      } else {
        assert |Reduce(hashes, m)| == |Reduce(tail, m)| + 1;
      }
    }
  }

  /** A hash list is collision-free when its tail is and its head collides
      with no later hash. */
  lemma {:induction false} CollisionFreeCons(hashes: seq<uint32>, m: uint32)
    requires m > 0 && |hashes| > 0
    ensures CollisionFree(hashes, m) <==>
              CollisionFree(hashes[1..], m) && forall j | 1 <= j < |hashes| :: hashes[j] % m != hashes[0] % m
  {
    var tail := hashes[1..];
    if CollisionFree(tail, m) && forall j | 1 <= j < |hashes| :: hashes[j] % m != hashes[0] % m {
      forall i, j | 0 <= i < j < |hashes|
        ensures hashes[i] % m != hashes[j] % m
      {
        if i > 0 {
          assert hashes[i] == tail[i - 1] && hashes[j] == tail[j - 1];
        }
      }
    }
    if CollisionFree(hashes, m) {
      forall i, j | 0 <= i < j < |tail|
        ensures tail[i] % m != tail[j] % m
      {
        assert tail[i] == hashes[i + 1] && tail[j] == hashes[j + 1];
      }
    }
  }

  /** No false negatives while the query modulus is the construction
      modulus: when the deduplicated count `|Reduce(..)|` gives the same
      truncated modulus as the hash count, `New` succeeds and every hash the
      filter was built from is found. Collisions do not matter by
      themselves. */
  lemma {:induction false} ModulusKeptNoFalseNegatives(hashes: seq<uint32>, power: int, hasher: Hasher)
    requires 1 <= power <= 31 && |hashes| > 0 && Modulus(|hashes|, power) != 0 && Modulus(|Reduce(hashes, Modulus(|hashes|, power))|, power) == Modulus(|hashes|, power)
    ensures New(hashes, power, hasher).Some?
    ensures QueryModulus(New(hashes, power, hasher).value) == Modulus(|hashes|, power) != 0
    ensures forall i | 0 <= i < |hashes| :: ContainsHash(New(hashes, power, hasher).value, hashes[i])
  {
  }

  /** With power 31 the hashes 0, 0, 0 collide, yet the query modulus
      `2^31` equals the construction modulus, and the hash is found. */
  lemma {:induction false} CollisionKeepsModulus(hasher: Hasher)
    ensures New([0, 0, 0], 31, hasher) == Some(Filter({0}, 31, hasher))
    ensures QueryModulus(Filter({0}, 31, hasher)) == Modulus(3, 31)
    ensures ContainsHash(Filter({0}, 31, hasher), 0)
  {
    Pow2ThirtyTwo();
    assert Pow2(32) == 2 * Pow2(31);
    DivModUnique(3 * Pow2(31), TWO_TO_THE_32, 1, Pow2(31));
    DivModUnique(Pow2(31), TWO_TO_THE_32, 0, Pow2(31));
    var h: seq<uint32> := [0, 0, 0];
    assert h[1..] == [0, 0] && h[1..][1..] == [0] && h[1..][1..][1..] == [];
    assert Reduce(h, Pow2(31)) == {0};
    assert |{0 as uint32}| == 1;
  }

  /** No false negatives when the reduction is collision-free: then the
      filter keeps one member per hash, so the query-time modulus equals the
      construction-time one, and every hash the filter was built from is
      found. */
  lemma {:induction false} NoFalseNegatives(hashes: seq<uint32>, power: int, hasher: Hasher)
    requires 1 <= power <= 31 && |hashes| > 0 && Modulus(|hashes|, power) != 0
    requires CollisionFree(hashes, Modulus(|hashes|, power))
    ensures New(hashes, power, hasher).Some?
    ensures |New(hashes, power, hasher).value.members| == |hashes|
    ensures QueryModulus(New(hashes, power, hasher).value) == Modulus(|hashes|, power)
    ensures forall i | 0 <= i < |hashes| :: ContainsHash(New(hashes, power, hasher).value, hashes[i])
  {
    var m := Modulus(|hashes|, power);
    ReduceSize(hashes, m);
    ModulusKeptNoFalseNegatives(hashes, power, hasher);
  }

  /** Every member below the query modulus is found as itself, and a query
      depends only on the residue of the hash. */
  lemma {:induction false} QueryFindsSmallMembers(f: Filter)
    requires QueryModulus(f) != 0
    ensures forall x | x in f.members && x < QueryModulus(f) :: ContainsHash(f, x)
    ensures forall h: uint32 :: ContainsHash(f, h) == ContainsHash(f, h % QueryModulus(f))
  {
    var m := QueryModulus(f);
    forall x | x in f.members && x < m
      ensures ContainsHash(f, x)
    {
      DivModUnique(x, m, 0, x);
    }
    forall h: uint32
      ensures ContainsHash(f, h) == ContainsHash(f, h % m)
    {
      DivModUnique(h % m, m, 0, h % m);
    }
  }

  /** The query modulus follows the deduplicated count: with power 1 the
      hashes 1, 7, 2 reduce modulo 6 to {1, 2}, after which queries reduce
      modulo 4, and the hash 7 the filter was built from is not found. */
  lemma {:induction false} CollisionCausesFalseNegative(hasher: Hasher)
    ensures New([1, 7, 2], 1, hasher) == Some(Filter({1, 2}, 1, hasher))
    ensures QueryModulus(Filter({1, 2}, 1, hasher)) == 4
    ensures !ContainsHash(Filter({1, 2}, 1, hasher), 7)
  {
    assert Pow2(1) == 2;
    ModulusOfSmall(3, 1);
    ModulusOfSmall(2, 1);
    ReduceExample();
    assert |{1, 2}| == 2 by {
      assert {1, 2} == {1} + {2};
    }
  }

  /** No truncation happens while the product fits in 32 bits. */
  lemma {:induction false} ModulusOfSmall(n: nat, power: nat)
    requires n * Pow2(power) < TWO_TO_THE_32
    ensures Modulus(n, power) == n * Pow2(power)
  {
    DivModUnique(n * Pow2(power), TWO_TO_THE_32, 0, n * Pow2(power));
  }

  /** The hashes 1, 7, 2 reduce modulo 6 to {1, 2}. */
  lemma {:induction false} ReduceExample()
    ensures Reduce([1, 7, 2], 6) == {1, 2}
  {
    var h0: seq<uint32>, h1: seq<uint32>, h2: seq<uint32> := [1, 7, 2], [7, 2], [2];
    assert h0[1..] == h1 && h1[1..] == h2 && h2[1..] == [];
    assert Reduce(h2, 6) == {2} + Reduce([], 6);
    assert Reduce(h1, 6) == {1} + Reduce(h2, 6);
    assert Reduce(h0, 6) == {1} + Reduce(h1, 6);
  }

  /** A member need not be found by querying it: with power 1 the hashes
      5, 11, 0 reduce modulo 6 to {0, 5}, queries reduce modulo 4, and 5
      reduces to 1. */
  lemma {:induction false} MemberNotFound(hasher: Hasher)
    ensures New([5, 11, 0], 1, hasher) == Some(Filter({0, 5}, 1, hasher))
    ensures QueryModulus(Filter({0, 5}, 1, hasher)) == 4
    ensures 5 in Filter({0, 5}, 1, hasher).members && !ContainsHash(Filter({0, 5}, 1, hasher), 5)
  {
    assert Pow2(1) == 2;
    ModulusOfSmall(3, 1);
    ModulusOfSmall(2, 1);
    ReduceExampleTwo();
    assert |{0, 5}| == 2 by {
      assert {0, 5} == {0} + {5};
    }
  }

  /** The hashes 5, 11, 0 reduce modulo 6 to {0, 5}. */
  lemma {:induction false} ReduceExampleTwo()
    ensures Reduce([5, 11, 0], 6) == {0, 5}
  {
    var h0: seq<uint32>, h1: seq<uint32>, h2: seq<uint32> := [5, 11, 0], [11, 0], [0];
    assert h0[1..] == h1 && h1[1..] == h2 && h2[1..] == [];
    assert Reduce(h2, 6) == {0} + Reduce([], 6);
    assert Reduce(h1, 6) == {5} + Reduce(h2, 6);
    assert Reduce(h0, 6) == {5} + Reduce(h1, 6);
  }

  /** The hashes 0, 2^31, 1 reduce modulo 2^31 to {0, 1}. */
  lemma {:induction false} ReduceExampleWide()
    ensures Reduce([0, 0x8000_0000, 1], 0x8000_0000) == {0, 1}
  {
    var h0: seq<uint32>, h1: seq<uint32>, h2: seq<uint32> := [0, 0x8000_0000, 1], [0x8000_0000, 1], [1];
    assert h0[1..] == h1 && h1[1..] == h2 && h2[1..] == [];
    assert Reduce(h2, 0x8000_0000) == {1} + Reduce([], 0x8000_0000);
    assert Reduce(h1, 0x8000_0000) == {0} + Reduce(h2, 0x8000_0000);
    assert Reduce(h0, 0x8000_0000) == {0} + Reduce(h1, 0x8000_0000);
  }

  /** The query modulus can vanish for a filter `New` builds: with power 31
      the hashes 0, 2^31, 1 reduce modulo `3 * 2^31 mod 2^32 == 2^31` to
      {0, 1}, and two members give the query modulus `2^32 mod 2^32 == 0`,
      so every query on it divides by zero. */
  lemma {:induction false} QueryModulusCanVanish(hasher: Hasher)
    ensures New([0, 0x8000_0000, 1], 31, hasher) == Some(Filter({0, 1}, 31, hasher))
    ensures QueryModulus(Filter({0, 1}, 31, hasher)) == 0
  {
    Pow2ThirtyTwo();
    assert Pow2(32) == 2 * Pow2(31);
    DivModUnique(3 * Pow2(31), TWO_TO_THE_32, 1, Pow2(31));
    DivModUnique(2 * Pow2(31), TWO_TO_THE_32, 1, 0);
    assert Modulus(3, 31) == 0x8000_0000;
    ReduceExampleWide();
    assert |{0, 1}| == 2 by {
      assert {0, 1} == {0} + {1};
    }
  }

  /** `builder`: the power (checked only when the filter is built), the
      hasher, and the raw hashes in the order their values were added. */
  datatype Builder = Builder(power: int, hasher: Hasher, data: seq<uint32>)

  /** `BuilderHash`: an empty builder; `power` is not validated here. */
  function BuilderHash(power: int, hasher: Hasher): (b: Builder)
    ensures b.data == [] && b.power == power && b.hasher == hasher
  {
    Builder(power, hasher, [])
  }

  /** `AddValue`: append the hash of the value; nothing is deduplicated. */
  function AddValue(b: Builder, value: seq<Byte>): (r: Builder)
    ensures |r.data| == |b.data| + 1
    ensures r.data[..|b.data|] == b.data && r.data[|b.data|] == b.hasher(value)
    ensures r.power == b.power && r.hasher == b.hasher
  {
    b.(data := b.data + [b.hasher(value)])
  }

  /** A caller adding the given values one after another. */
  function AddValues(b: Builder, values: seq<seq<Byte>>): Builder
    decreases |values|
  {
    if |values| == 0 then b else AddValues(AddValue(b, values[0]), values[1..])
  }

  /** `builder.Filter`: construct from the accumulated hashes. */
  function BuildFilter(b: Builder): (r: Option<Filter>)
    ensures (b.power < 1 || b.power > 31) ==> r.None?
    ensures r.Some? ==> r.value.power == b.power && r.value.hasher == b.hasher
  {
    New(b.data, b.power, b.hasher)
  }

  /** Adding values one by one keeps every earlier hash, in order, and
      appends exactly one hash per value. */
  lemma {:induction false} AddValuesAccumulates(b: Builder, values: seq<seq<Byte>>)
    ensures AddValues(b, values).power == b.power
    ensures AddValues(b, values).hasher == b.hasher
    ensures |AddValues(b, values).data| == |b.data| + |values|
    ensures AddValues(b, values).data[..|b.data|] == b.data
    ensures forall i | 0 <= i < |values| :: AddValues(b, values).data[|b.data| + i] == b.hasher(values[i])
    decreases |values|
  {
    if |values| > 0 {
      var b' := AddValue(b, values[0]);
      AddValuesAccumulates(b', values[1..]);
      var d := AddValues(b, values).data;
      assert d == AddValues(b', values[1..]).data;
      assert d[..|b.data|] == d[..|b'.data|][..|b.data|];
      forall i | 0 <= i < |values|
        ensures d[|b.data| + i] == b.hasher(values[i])
      {
        if i > 0 {
          assert d[|b'.data| + (i - 1)] == b.hasher(values[1..][i - 1]);
        }
      }
    }
  }

  /** End to end: a value added to a builder is found by `Contains` in the
      filter built from it, as long as the query modulus is the
      construction modulus. */
  lemma {:induction false} BuilderNoFalseNegatives(power: int, hasher: Hasher, values: seq<seq<Byte>>)
    requires 1 <= power <= 31 && |values| > 0
    requires BuildFilter(AddValues(BuilderHash(power, hasher), values)).Some?
    requires QueryModulus(BuildFilter(AddValues(BuilderHash(power, hasher), values)).value) == Modulus(|values|, power)
    ensures QueryModulus(BuildFilter(AddValues(BuilderHash(power, hasher), values)).value) != 0
    ensures forall i | 0 <= i < |values| :: Contains(BuildFilter(AddValues(BuilderHash(power, hasher), values)).value, values[i])
  {
    var b := AddValues(BuilderHash(power, hasher), values);
    AddValuesAccumulates(BuilderHash(power, hasher), values);
    HashedValuesAreFound(b.data, power, hasher, values);
  }

  /** The same when no two added values' hashes collide after reduction:
      then building succeeds and the moduli agree. */
  lemma {:induction false} BuilderCollisionFreeNoFalseNegatives(power: int, hasher: Hasher, values: seq<seq<Byte>>)
    requires 1 <= power <= 31 && |values| > 0 && Modulus(|values|, power) != 0
    requires forall i, j | 0 <= i < j < |values| ::
               hasher(values[i]) % Modulus(|values|, power) != hasher(values[j]) % Modulus(|values|, power)
    ensures BuildFilter(AddValues(BuilderHash(power, hasher), values)).Some?
    ensures QueryModulus(BuildFilter(AddValues(BuilderHash(power, hasher), values)).value) == Modulus(|values|, power)
    ensures forall i | 0 <= i < |values| :: Contains(BuildFilter(AddValues(BuilderHash(power, hasher), values)).value, values[i])
  {
    var b := AddValues(BuilderHash(power, hasher), values);
    var m := Modulus(|values|, power);
    AddValuesAccumulates(BuilderHash(power, hasher), values);
    forall i, j | 0 <= i < j < |b.data|
      ensures b.data[i] % m != b.data[j] % m
    {
      assert b.data[i] == hasher(values[i]) && b.data[j] == hasher(values[j]);
    }
    NoFalseNegatives(b.data, power, hasher);
    BuilderNoFalseNegatives(power, hasher, values);
  }

  /** Hashes stored in order of the values: a query for each value is a
      query for its stored hash. */
  lemma {:induction false} HashedValuesAreFound(data: seq<uint32>, power: int, hasher: Hasher, values: seq<seq<Byte>>)
    requires |data| == |values| > 0
    requires forall i | 0 <= i < |values| :: data[i] == hasher(values[i])
    requires New(data, power, hasher).Some?
    requires QueryModulus(New(data, power, hasher).value) == Modulus(|data|, power)
    ensures QueryModulus(New(data, power, hasher).value) != 0
    ensures forall i | 0 <= i < |values| :: Contains(New(data, power, hasher).value, values[i])
  {
    ModulusKeptNoFalseNegatives(data, power, hasher);
    var f := New(data, power, hasher).value;
    forall i | 0 <= i < |values|
      ensures Contains(f, values[i])
    {
      assert ContainsHash(f, data[i]);
    }
  }
}

=== FILE: rice.dfy ===
/** Golomb-Rice coding of a single 32-bit value with parameter `power`
    (filter.go: `appendCoding` and `extractValue`). A value v is written as
    v / 2^power ones, one zero, and then the low `power` bits of v, most
    significant first. */
module Rice {
  import opened Words

  /** `n` one-bits: the unary quotient. */
  function Ones(n: nat): (r: seq<Bit>)
    ensures |r| == n
  {
    if n == 0 then [] else [1] + Ones(n - 1)
  }

  lemma {:induction false} OnesAt(n: nat)
    ensures forall k | 0 <= k < n :: Ones(n)[k] == 1
  {
    if n > 0 {
      OnesAt(n - 1);
      assert forall k | 1 <= k < n :: Ones(n)[k] == Ones(n - 1)[k - 1];
    }
  }

  /** The low `width` bits of `x`, most significant first, as the countdown
      loop over `remainder >> j & 1` emits them. */
  function MsbBits(x: nat, width: nat): (r: seq<Bit>)
    ensures |r| == width
  {
    if width == 0 then [] else [Shr(x, width - 1) % 2] + MsbBits(x, width - 1)
  }

  /** Entry k of `MsbBits(x, width)` is bit `width - 1 - k` of x. */
  lemma {:induction false} MsbBitsAt(x: nat, width: nat)
    ensures forall k | 0 <= k < width :: MsbBits(x, width)[k] == Shr(x, width - 1 - k) % 2
  {
    if width > 0 {
      MsbBitsAt(x, width - 1);
      assert forall k | 1 <= k < width :: MsbBits(x, width)[k] == MsbBits(x, width - 1)[k - 1];
    }
  }

  /** The decoder's remainder loop: the `n` bits from `from` on read as a
      binary number, most significant first, which is the sum of
      `bits[from + i] << (n - 1 - i)` the loop accumulates. */
  function ReadBits(bits: seq<Bit>, from: nat, n: nat): (r: nat)
    requires from + n <= |bits|
    ensures r < Pow2(n)
    decreases n
  {
    if n == 0 then 0 else 2 * ReadBits(bits, from, n - 1) + bits[from + n - 1]
  }

  /** Reading back the top `n` of the `w` bits that `MsbBits(x, w)` emits
      yields those bits of x: the low n bits of x >> (w - n). */
  lemma {:induction false} ReadBitsOfMsb(bits: seq<Bit>, from: nat, x: nat, w: nat, n: nat)
    requires n <= w && from + n <= |bits|
    requires forall k | from <= k < from + n :: bits[k] == Shr(x, w - 1 - (k - from)) % 2
    ensures ReadBits(bits, from, n) == LowBits(Shr(x, w - n), n)
    decreases n
  {
    if n > 0 {
      var y := Shr(x, w - n);
      assert bits[from + n - 1] == y % 2;
      ReadBitsOfMsb(bits, from, x, w, n - 1);
      ShrOnce(x, w - n);
      LowBitsStep(y, n);
    }
  }

  /** A remainder field holding the low `power` bits of `value`, most
      significant first, reads back as `value % 2^power`. */
  lemma {:induction false} ReadRemainderField(bits: seq<Bit>, from: nat, value: nat, power: nat)
    requires from + power <= |bits|
    requires forall k | from <= k < from + power :: bits[k] == Shr(LowBits(value, power), power - 1 - (k - from)) % 2
    ensures ReadBits(bits, from, power) == LowBits(value, power)
  {
    var x := LowBits(value, power);
    ReadBitsOfMsb(bits, from, x, power, power);
    assert Shr(x, 0) == x;
    ShrLowBits(value, power);
    LowBitsOfSmall(x, power);
  }

  /** Bit j of the low `p` bits of v is bit j of v itself, for j < p. */
  lemma {:induction false} LowBitsKeepBit(v: nat, p: nat, j: nat)
    requires j < p
    ensures Shr(LowBits(v, p), j) % 2 == Shr(v, j) % 2
  {
    var a, b := Shr(v, p), LowBits(v, p);
    var low, high := Pow2(j), Pow2(p - j - 1);
    SplitAtPower(v, p);
    Pow2Split(p, j);
    MulRegroup(Pow2(p), low, high, a);
    assert v == low * (2 * (high * a)) + b;
    SameBitAboveEvenBlock(v, low, high * a, b);
  }

  /** Adding an even multiple of `low` does not change bit "low" of a value. */
  lemma {:induction false} SameBitAboveEvenBlock(v: nat, low: nat, upper: nat, b: nat)
    requires low > 0
    requires v == low * (2 * upper) + b
    ensures (b / low) % 2 == (v / low) % 2
  {
    DivOfMulAdd(low, 2 * upper, b);
    DivOfMulAdd(2, upper, b / low);
  }

  /** The code of one value, with no prefix. */
  function RiceCode(value: uint32, power: nat): (r: seq<Bit>)
    ensures |r| == Shr(value, power) + 1 + power
  {
    Ones(Shr(value, power)) + [0] + MsbBits(LowBits(value, power), power)
  }

  /** The code of a value: `value >> power` ones, a zero, then bit
      `power - 1 - j` of `value % 2^power` at remainder position j. */
  lemma {:induction false} RiceCodeBits(value: uint32, power: nat)
    ensures forall k | 0 <= k < Shr(value, power) :: RiceCode(value, power)[k] == 1
    ensures RiceCode(value, power)[Shr(value, power)] == 0
    ensures forall k | Shr(value, power) < k < Shr(value, power) + 1 + power ::
              RiceCode(value, power)[k] == Shr(LowBits(value, power), power - 1 - (k - Shr(value, power) - 1)) % 2
  {
    var q := Shr(value, power);
    var c := RiceCode(value, power);
    OnesAt(q);
    MsbBitsAt(LowBits(value, power), power);
    assert forall k | 0 <= k < q :: c[k] == Ones(q)[k];
    assert forall k | q < k < q + 1 + power :: c[k] == MsbBits(LowBits(value, power), power)[k - q - 1];
  }

  /** `appendCoding`: the bits so far, then the unary quotient, its
      terminating zero and the `power` remainder bits. The remainder mask the
      Go code passes is always `2^power - 1` truncated to 32 bits, so `value &
      remainderMask` is `value % 2^power` here. */
  function AppendCoding(bits: seq<Bit>, value: uint32, power: nat): (r: seq<Bit>)
    ensures |r| == |bits| + Shr(value, power) + 1 + power
  {
    bits + RiceCode(value, power)
  }

  /** `appendCoding` keeps the bits it is given and follows them with
      `value >> power` ones and a zero. */
  lemma {:induction false} AppendCodingShape(bits: seq<Bit>, value: uint32, power: nat)
    ensures AppendCoding(bits, value, power)[..|bits|] == bits
    ensures forall k | |bits| <= k < |bits| + Shr(value, power) :: AppendCoding(bits, value, power)[k] == 1
    ensures AppendCoding(bits, value, power)[|bits| + Shr(value, power)] == 0
  {
    var r := AppendCoding(bits, value, power);
    var c := RiceCode(value, power);
    var q := Shr(value, power);
    RiceCodeBits(value, power);
    assert r[..|bits|] == bits;
    forall k | |bits| <= k < |bits| + q
      ensures r[k] == 1
    {
      assert r[k] == c[k - |bits|];
    }
    assert r[|bits| + q] == c[q];
  }

  /** The last `power` bits `appendCoding` emits are the low bits of the
      value, most significant first: counted from the end, entry j is bit j of
      the value, and read back as a binary number they give `value % 2^power`. */
  lemma {:induction false} AppendCodingRemainder(bits: seq<Bit>, value: uint32, power: nat)
    ensures forall j | 0 <= j < power ::
              AppendCoding(bits, value, power)[|bits| + Shr(value, power) + power - j] == Shr(value, j) % 2
    ensures ReadBits(AppendCoding(bits, value, power), |bits| + Shr(value, power) + 1, power) == LowBits(value, power)
  {
    var r := AppendCoding(bits, value, power);
    var q := Shr(value, power);
    var start := |bits| + q + 1;
    RemainderFieldOfAppend(bits, value, power);
    ReadRemainderField(r, start, value, power);
    forall j | 0 <= j < power
      ensures r[start + power - 1 - j] == Shr(value, j) % 2
    {
      assert r[start + power - 1 - j] == Shr(LowBits(value, power), j) % 2;
      LowBitsKeepBit(value, power, j);
    }
  }

  /** Where `appendCoding` puts the remainder bits. */
  lemma {:induction false} RemainderFieldOfAppend(bits: seq<Bit>, value: uint32, power: nat)
    ensures forall k | |bits| + Shr(value, power) + 1 <= k < |bits| + Shr(value, power) + 1 + power ::
              AppendCoding(bits, value, power)[k]
                == Shr(LowBits(value, power), power - 1 - (k - (|bits| + Shr(value, power) + 1))) % 2
  {
    var r := AppendCoding(bits, value, power);
    var c := RiceCode(value, power);
    RiceCodeBits(value, power);
    assert forall k | |bits| <= k < |r| :: r[k] == c[k - |bits|];
  }

  /** The length of the unary run of ones starting at `i` (the counting loop
      of `extractValue`, which stops at a zero or at the end of the bits). */
  function UnaryRun(bits: seq<Bit>, i: nat): nat
    decreases |bits| - i
  {
    if i < |bits| && bits[i] != 0 then 1 + UnaryRun(bits, i + 1) else 0
  }

  /** The run counted from `i` stays inside the bits, consists of ones, and
      ends at a zero or at the end of the bits. */
  lemma {:induction false} UnaryRunStops(bits: seq<Bit>, i: nat)
    ensures UnaryRun(bits, i) > 0 ==> i + UnaryRun(bits, i) <= |bits|
    ensures forall k | i <= k < i + UnaryRun(bits, i) :: bits[k] == 1
    ensures i + UnaryRun(bits, i) < |bits| ==> bits[i + UnaryRun(bits, i)] == 0
    decreases |bits| - i
  {
    if i < |bits| && bits[i] != 0 {
      UnaryRunStops(bits, i + 1);
    }
  }

  lemma {:induction false} UnaryRunOfOnes(bits: seq<Bit>, i: nat, q: nat)
    requires i + q < |bits|
    requires forall k | i <= k < i + q :: bits[k] == 1
    requires bits[i + q] == 0
    ensures UnaryRun(bits, i) == q
    decreases q
  {
    if q > 0 {
      UnaryRunOfOnes(bits, i + 1, q - 1);
    }
  }

  /** `extractValue`: the decoded value and the index just past its code, or
      None where the Go code reads past the end of the bits (a panic). With
      power 0 no remainder bit is read, so nothing can go out of range. The
      value is `uint32(unary << power) | uint32(remainder)`; the two halves
      occupy disjoint bits, so that is their sum truncated to 32 bits. */
  function ExtractValue(bits: seq<Bit>, index: nat, power: nat): (r: Option<(uint32, nat)>)
    ensures r.Some? ==> r.value.1 > index
    ensures r.Some? && power > 0 ==> r.value.1 <= |bits|
    ensures r.None? <==> power > 0 && index + UnaryRun(bits, index) + 1 + power > |bits|
    ensures r.Some? ==> r.value.1 == index + UnaryRun(bits, index) + 1 + power
  {
    var unary := UnaryRun(bits, index);
    var remainderIndex := index + unary + 1;
    if power > 0 && remainderIndex + power > |bits| then None
    else
      var remainder := if power == 0 then 0 else ReadBits(bits, remainderIndex, power);
      Some(((Shl(unary, power) + remainder) % TWO_TO_THE_32, remainderIndex + power))
  }

  /** `extractValue` inverts `appendCoding`: wherever the code of a value
      sits in a bitstream, extraction from its first bit returns the value
      and the index just past the code. */
  lemma {:induction false} ExtractInvertsAppend(bits: seq<Bit>, index: nat, value: uint32, power: nat)
    requires index + |RiceCode(value, power)| <= |bits|
    requires forall j | 0 <= j < |RiceCode(value, power)| :: bits[index + j] == RiceCode(value, power)[j]
    ensures ExtractValue(bits, index, power) == Some((value, index + Shr(value, power) + 1 + power))
  {
    var q := Shr(value, power);
    UnaryRunOfCode(bits, index, value, power);
    RemainderOfCode(bits, index, value, power);
    Reassemble(value, power);
    assert UnaryRun(bits, index) == q;
  }

  /** The unary run counted at the start of a code is its quotient. */
  lemma {:induction false} UnaryRunOfCode(bits: seq<Bit>, index: nat, value: uint32, power: nat)
    requires index + |RiceCode(value, power)| <= |bits|
    requires forall j | 0 <= j < |RiceCode(value, power)| :: bits[index + j] == RiceCode(value, power)[j]
    ensures UnaryRun(bits, index) == Shr(value, power)
  {
    var c := RiceCode(value, power);
    var q := Shr(value, power);
    RiceCodeBits(value, power);
    forall k | index <= k < index + q
      ensures bits[k] == 1
    {
      assert bits[index + (k - index)] == c[k - index];
    }
    assert bits[index + q] == c[q];
    UnaryRunOfOnes(bits, index, q);
  }

  /** The remainder field of a code reads back as the value's low bits. */
  lemma {:induction false} RemainderOfCode(bits: seq<Bit>, index: nat, value: uint32, power: nat)
    requires index + |RiceCode(value, power)| <= |bits|
    requires forall j | 0 <= j < |RiceCode(value, power)| :: bits[index + j] == RiceCode(value, power)[j]
    ensures power > 0 ==> ReadBits(bits, index + Shr(value, power) + 1, power) == LowBits(value, power)
  {
    if power > 0 {
      var c := RiceCode(value, power);
      var start := index + Shr(value, power) + 1;
      RiceCodeBits(value, power);
      forall k | start <= k < start + power
        ensures bits[k] == Shr(LowBits(value, power), power - 1 - (k - start)) % 2
      {
        assert bits[index + (k - index)] == c[k - index];
      }
      ReadRemainderField(bits, start, value, power);
    }
  }

  /** The quotient shifted back up plus the remainder is the value again. */
  lemma {:induction false} Reassemble(value: uint32, power: nat)
    ensures (Shl(Shr(value, power), power) + LowBits(value, power)) % TWO_TO_THE_32 == value
  {
    ShrLowBits(value, power);
    DivModUnique(value, TWO_TO_THE_32, 0, value);
  }
}

=== FILE: words.dfy ===
/** Fixed-width integer vocabulary shared by the filter and its codec: Go's
    `uint32`, a byte, a single bit of the `[]int` bitstreams, powers of two
    and the division facts the codec proofs rest on. */
module Words {

  const TWO_TO_THE_32: int := 0x1_0000_0000

  type uint32 = x: int | 0 <= x < TWO_TO_THE_32
  type Byte = x: int | 0 <= x < 256
  /** One entry of the bitstreams, which hold only 0 and 1. */
  type Bit = x: int | 0 <= x <= 1

  /** The failure-compatible result used for the operations that panic in Go. */
  datatype Option<+T> = None | Some(value: T)

  /** 2^n, written `1 << n` in filter.go. */
  function Pow2(n: nat): (r: nat)
    ensures r >= 1
  {
    if n == 0 then 1 else 2 * Pow2(n - 1)
  }

  /** `x >> n` on a non-negative integer. */
  function Shr(x: nat, n: nat): nat
  {
    QuotientIsNatural(x, Pow2(n));
    x / Pow2(n)
  }

  lemma {:induction false} QuotientIsNatural(x: nat, d: nat)
    requires d > 0
    ensures x / d >= 0
  {
  }

  /** `x << n` on a non-negative integer, before any truncation. */
  function Shl(x: nat, n: nat): nat
  {
    if n == 0 then x else 2 * Shl(x, n - 1)
  }

  /** Shifting left by n multiplies by 2^n. */
  lemma {:induction false} ShlIsMul(x: nat, n: nat)
    ensures Shl(x, n) == x * Pow2(n)
  {
    if n > 0 {
      ShlIsMul(x, n - 1);
      assert x * Pow2(n) == 2 * (x * Pow2(n - 1));
    }
  }

  /** `x & (2^n - 1)`: the low `n` bits of a non-negative integer. */
  function LowBits(x: nat, n: nat): nat
  {
    x % Pow2(n)
  }

  lemma {:induction false} Pow2Add(a: nat, b: nat)
    ensures Pow2(a + b) == Pow2(a) * Pow2(b)
  {
    if a > 0 {
      Pow2Add(a - 1, b);
      assert Pow2(a + b) == 2 * Pow2(a - 1 + b);
    }
  }

  /** 2^p split at bit j < p: 2^j times twice 2^(p - j - 1). */
  lemma {:induction false} Pow2Split(p: nat, j: nat)
    requires j < p
    ensures Pow2(p) == Pow2(j) * (2 * Pow2(p - j - 1))
  {
    Pow2Add(j, p - j);
  }

  lemma {:induction false} MulRegroup(whole: nat, low: nat, high: nat, a: nat)
    requires whole == low * (2 * high)
    ensures whole * a == low * (2 * (high * a))
  {
  }

  lemma {:induction false} Pow2ThirtyTwo()
    ensures Pow2(32) == TWO_TO_THE_32
  {
    assert Pow2(4) == 16;
    Pow2Add(4, 4);
    Pow2Add(8, 8);
    Pow2Add(16, 16);
  }

  lemma {:induction false} MulAtLeast(d: nat, n: nat)
    requires n >= 1
    ensures d * n >= d
  {
    if n > 1 {
      MulAtLeast(d, n - 1);
      assert d * n == d * (n - 1) + d;
    }
  }

  lemma {:induction false} MulSucc(n: nat, c: nat)
    requires n >= 1
    ensures n * c == (n - 1) * c + c
  {
  }

  /** Quotient and remainder are unique: any decomposition `x == d * q + r`
      with `0 <= r < d` is the Euclidean one. */
  lemma {:induction false} DivModUnique(x: int, d: int, q: int, r: int)
    requires d > 0 && 0 <= r < d && x == d * q + r
    ensures x / d == q && x % d == r
  {
    var q', r' := x / d, x % d;
    assert x == d * q' + r';
    assert d * (q - q') == r' - r;
    if q > q' {
      MulAtLeast(d, q - q');
    } else if q < q' {
      MulAtLeast(d, q' - q);
    }
  }

  /** A value is its quotient by 2^n shifted back up, plus its low n bits. */
  lemma {:induction false} ShrLowBits(x: nat, n: nat)
    ensures Shl(Shr(x, n), n) + LowBits(x, n) == x
    ensures LowBits(x, n) < Pow2(n)
  {
    ShlIsMul(Shr(x, n), n);
  }

  /** A value is 2^n times its quotient plus its low n bits. */
  lemma {:induction false} SplitAtPower(x: nat, n: nat)
    ensures x == Pow2(n) * Shr(x, n) + LowBits(x, n)
  {
    ShrLowBits(x, n);
    ShlIsMul(Shr(x, n), n);
  }

  /** The low n bits of a value already below 2^n are the value itself. */
  lemma {:induction false} LowBitsOfSmall(x: nat, n: nat)
    requires x < Pow2(n)
    ensures LowBits(x, n) == x
  {
    DivModUnique(x, Pow2(n), 0, x);
  }

  /** Adding a multiple of the divisor adds to the quotient only. */
  lemma {:induction false} DivOfMulAdd(d: nat, a: nat, b: nat)
    requires d > 0
    ensures (d * a + b) / d == a + b / d
    ensures (d * a + b) % d == b % d
  {
    assert d * a + b == d * (a + b / d) + b % d;
    DivModUnique(d * a + b, d, a + b / d, b % d);
  }

  /** Rounding down never gains from splitting a sum: a/k + b/k <= (a + b)/k. */
  lemma {:induction false} FloorDivSuperadditive(a: nat, b: nat, k: nat)
    requires k > 0
    ensures a / k + b / k <= (a + b) / k
  {
    var qa, ra := a / k, a % k;
    var qb, rb := b / k, b % k;
    assert a + b == k * (qa + qb) + (ra + rb);
    if ra + rb < k {
      DivModUnique(a + b, k, qa + qb, ra + rb);
    } else {
      DivModUnique(a + b, k, qa + qb + 1, ra + rb - k);
    }
  }

  /** Shifting right once more halves the quotient: x >> (m + 1) == (x >> m) / 2. */
  lemma {:induction false} ShrOnce(x: nat, m: nat)
    ensures Shr(x, m + 1) == Shr(x, m) / 2
  {
    var p := Pow2(m);
    var q, r := x / p, x % p;
    var h, b := q / 2, q % 2;
    assert x == p * q + r;
    assert p * q == (2 * p) * h + p * b by {
      assert q == 2 * h + b;
    }
    assert p * b + r < 2 * p by {
      if b == 1 { assert p * b == p; } else { assert p * b == 0; }
    }
    DivModUnique(x, 2 * p, h, p * b + r);
  }

  /** The low n bits of y are the low n - 1 bits of y / 2 shifted up, plus
      the lowest bit of y. */
  lemma {:induction false} LowBitsStep(y: nat, n: nat)
    requires n > 0
    ensures LowBits(y, n) == 2 * LowBits(y / 2, n - 1) + y % 2
  {
    var a := Pow2(n - 1);
    var h, r := (y / 2) / a, (y / 2) % a;
    assert y / 2 == a * h + r;
    assert y == (2 * a) * h + (2 * r + y % 2);
    DivModUnique(y, 2 * a, h, 2 * r + y % 2);
  }
}
